=== FILE: README.md ===
# teleNewsBot core, modelled in Dafny

teleNewsBot watches one Telegram channel of financial news. At each interval a
reader client takes the messages the channel library yields for the window. Each new batch goes to a
language model for a structured market-impact analysis, and the rendered
analysis is sent to every active subscriber. Subscribers are kept in a small
table, either PostgreSQL or SQLite. A failed send soft-deletes the recipient.

The project models:

- both subscriber stores: every operation and the table they share;
- the channel fetch: reconnect, channel-name resolution, the message cap and
  dropping empty texts;
- the pure part of summarising: joining and truncating the batch, and the two
  fallback analyses;
- rendering, up to structure;
- the distribution fan-out, with its failure isolation;
- one pass of the monitor loop, with its deduplication cursor.

Whatever the program receives from outside is an input to the model:

- the channel's contents and errors;
- the language model's reply, already classified by `json.loads`;
- store faults;
- which sends fail, and which of those deregistrations fail;
- the clock.

Files (one module each):

- `wrappers.dfy`: `Option`, `Result` and `Min`.
- `registry.dfy`: the subscriber table and soft delete, plus the ascending
  listing of active ids.
- `sqlite_store.dfy`, `postgres_store.dfy`: the two backends.
- `backends.dfy`: how the two backends agree and differ.
- `channel.dfy`: `fetch_recent_messages`.
- `artifact.dfy`: the analysis record and its truthiness.
- `summarizer.dfy`: `summarize`.
- `rendering.dfy`: the message body.
- `distribution.dfy`: `send_summary_to_subscribers`.
- `monitor.dfy`: one pass of `monitor_and_summarize`.

The application imports the SQLite store (simple_solution.py:24), so the
distribution and monitor models use `SqliteStore`.

`summarize` returns whatever `json.loads` produced, without checking its
fields. `Parsed.Unshaped` is a truthy reply that lacks a field
rendering reads. Rendering raises on it, but only when there are recipients.
The monitor's error handler catches the exception after the cursor has already
advanced. SQLite reports a failed write as `False`; the PostgreSQL store re-raises
(subscriber_db.py:56-58, 68-70).

## Model

| member | source | states |
|---|---|---|
| Registry.Deactivate | subscriber_db_sqlite.py:57-59 | soft delete: the id's row loses `active` and keeps every other field; other rows and the key set are unchanged; an unknown id changes nothing |
| Registry.ActiveList | subscriber_db_sqlite.py:71-75 | the listed ids are exactly the active rows, each once |
| Registry.CountIsListLength | subscriber_db_sqlite.py:80-91 | the active count (`COUNT(*) ... WHERE active = 1`) equals the length of the active list, so the two reads never disagree |
| Registry.SortedIdsUnique | subscriber_db_sqlite.py:27-28 | a strictly increasing listing of an id set is the ascending listing, so the rowid-order scan is determined by the set of active ids |
| Registry.ActiveAfterDeregister | subscriber_db_sqlite.py:57-59 | deactivating a set of ids removes exactly those ids from the active set |
| Registry.DeregisteredOnlyClearsActive | subscriber_db.py:64-66 | deregistration keeps keys, handles, names and subscription times, and ids outside the set keep their flag |
| Registry.DeactivateThenDeregister | subscriber_db_sqlite.py:57-59 | one soft delete followed by a batch of soft deletes equals the batch with that id added |
| SqliteStore.Connect | subscriber_db_sqlite.py:12-35 | `CREATE TABLE IF NOT EXISTS` keeps existing rows; any failure is raised |
| SqliteStore.AddSubscriber | subscriber_db_sqlite.py:37-51 | returns True iff no fault; `INSERT OR REPLACE` writes a fresh active row with the new handle, name and current time even for a known id; other rows unchanged; a faulting write leaves the table as it was |
| SqliteStore.RemoveSubscriber | subscriber_db_sqlite.py:53-65 | returns True iff no fault, also for an unknown id; the row becomes inactive and keeps its handle, name and subscription time; other rows unchanged; a fault changes nothing |
| SqliteStore.GetActiveSubscribers | subscriber_db_sqlite.py:67-78 | exactly the active ids, each once; `[]` on error |
| SqliteStore.GetSubscriberCount | subscriber_db_sqlite.py:80-91 | the length of the active list; 0 on error |
| SqliteStore.Close | subscriber_db_sqlite.py:93-95 | closing only logs: the list and the count read afterwards are the same |
| SqliteStore.CloseRepeatable | subscriber_db_sqlite.py:93-95 | closing twice leaves the table as it was |
| SqliteStore.Resubscribe | subscriber_db_sqlite.py:41-45 | subscribe, unsubscribe, subscribe again: the row is active with the latest handle, name and time, and is listed |
| SqliteStore.RepeatAddRestamps | subscriber_db_sqlite.py:41-45 | repeating an add later with the same handle and name changes only that row's `subscribed_at`, which becomes the later time |
| SqliteStore.RemoveUnknownIsNoOp | subscriber_db_sqlite.py:57-62 | removing an id that is not in the table changes nothing and reports success |
| SqliteStore.EmptyStoreScenario | subscriber_db_sqlite.py:37-91 | from an empty table, subscribing 42 gives the list `[42]` and the count 1 |
| PostgresStore.Connect | subscriber_db.py:13-31 | an unset or empty `DATABASE_URL` is a configuration error; success iff the URL is set, the pool is created and the schema step succeeds; the rows are kept; afterwards the pool is open iff it was open before or was created, including when the schema step then raised |
| PostgresStore.SchemaFailureKeepsPool | subscriber_db.py:20-31 | a `connect` that raised in the schema step leaves a pool on which a later fault-free add succeeds |
| PostgresStore.AddSubscriber | subscriber_db.py:46-58 | raises iff a fault or no open pool; the upsert makes the row active with the new handle and name, keeps `subscribed_at` of a known id and stamps a new one with the current time; other rows unchanged |
| PostgresStore.RemoveSubscriber | subscriber_db.py:60-70 | raises iff a fault or no open pool; the row becomes inactive and keeps its handle, name and subscription time; an unknown id changes nothing; other rows unchanged |
| PostgresStore.GetActiveSubscribers | subscriber_db.py:72-82 | exactly the active ids, each once; `[]` on error or with no pool |
| PostgresStore.GetSubscriberCount | subscriber_db.py:84-92 | the length of what the active list would return; 0 on error |
| PostgresStore.Close | subscriber_db.py:94-98 | the rows stay, the pool is closed, and every later add or remove raises |
| PostgresStore.Resubscribe | subscriber_db.py:50-54 | subscribe, unsubscribe, subscribe again on an open pool: the row is active with the latest handle and name and keeps the time the id was first stored (the first add's time only for an id new to the table) |
| PostgresStore.AddIdempotent | subscriber_db.py:50-54 | repeating an add with the same handle and name changes nothing, whatever the clock says |
| PostgresStore.EmptyStoreScenario | subscriber_db.py:46-92 | from an empty table, subscribing 42 gives the list `[42]` and the count 1 |
| Backends.AddAgreesExceptTimestamp | subscriber_db.py:50-54 | on the same table both adds agree on keys, handles, names and flags, and on every other row's time; the added id gets SQLite's local clock, and in PostgreSQL its stored time or, for a new id, the UTC clock |
| Backends.RemoveAgrees | subscriber_db.py:64-66 | both removes produce the same table |
| Backends.ReadsAgree | subscriber_db.py:72-92 | on the same table both backends list the same active ids (as sets) and report the same count |
| Backends.WriteFailureSignalling | subscriber_db.py:56-70 | a failed write leaves the table unchanged; SQLite returns False, PostgreSQL raises |
| Backends.ResubscriptionTimestampsDiverge | subscriber_db.py:53 | re-subscribing an inactive row at time 2 that was first stamped at time 1: SQLite shows 2, PostgreSQL shows 1 |
| Channel.FetchCap | simple_solution.py:131 | cap 500 iff the window is at least 3 hours, otherwise 50 |
| Channel.WithText | simple_solution.py:137-138 | the kept messages are exactly those with non-empty text; empty iff every text is empty; the first kept message is the first one with text |
| Channel.WithTextAppend | simple_solution.py:133-144 | filtering a concatenation is the concatenation of the filtered parts, so kept messages keep their relative order |
| Channel.WithTextSingle | simple_solution.py:137-138 | a single message is kept iff its text is non-empty |
| Channel.Take | simple_solution.py:133-136 | at most `cap` messages, the feed's first ones in order |
| Channel.ReadChannel | simple_solution.py:113-146 | at most `cap` messages, all with non-empty text and all from the first `cap` messages of the feed; non-empty only when the lookup finds the name (directly or with `@`) without raising and iteration does not raise; then every non-empty message within the cap is included and the first one with text comes first |
| Channel.FetchRecentMessages | simple_solution.py:95-158 | a reader that is down and cannot be reauthorised yields `[]`; results respect the cap, hold no empty text and come from the first cap messages of the feed; a channel the lookup finds without raising and that iterates cleanly yields every non-empty message within the cap, led by the first one with text; the reader ends disconnected iff the reconnect raised, or the lookup or the iteration of a found channel raised an error naming the connection |
| Summarizer.Texts | simple_solution.py:167 | one text per message, in order |
| Summarizer.Join | simple_solution.py:168 | joining no texts gives the empty string; a joined batch starts with its first text verbatim |
| Summarizer.JoinLength | simple_solution.py:168 | the joined length is every text plus one separator between neighbours |
| Summarizer.JoinPlacesText | simple_solution.py:168 | each text appears verbatim at its offset, so texts keep their order |
| Summarizer.JoinPlacesSeparator | simple_solution.py:168 | exactly the separator `\n\n---\n\n` stands between neighbouring texts |
| Summarizer.Truncate | simple_solution.py:170-173 | a text of at most 15000 characters is kept; a longer one becomes its first 15000 characters followed by `...(truncated)` |
| Summarizer.TruncateIdempotent | simple_solution.py:171-172 | truncating twice equals truncating once |
| Summarizer.BatchText | simple_solution.py:166-173 | the batch text is bounded; when no truncation happens every message text appears at its offset; when the joined text exceeds 15000 characters the batch text is its first 15000 characters followed by `...(truncated)` |
| Summarizer.ParseFallback | simple_solution.py:246-256 | an unparseable reply gives the fallback shape: no stocks or sectors, neutral sentiment, the single point `Error: Unable to parse structured data`, and a summary quoting the first `min(500, len)` characters of the raw reply between the fixed lead and `...` |
| Summarizer.RequestFallback | simple_solution.py:257-266 | a failed request gives the fallback shape with `Error generating summary` and its single error point |
| Summarizer.Summarize | simple_solution.py:160-266 | `None` iff the batch is empty (a reply parsing to `null`, Python's `None` too, is kept as a falsy `Some`, which every caller handles alike); otherwise a parsed reply is passed through unchanged; an unparseable reply gives the parse fallback whose summary is the fixed lead, the first `min(500, len)` characters of the raw reply and `...`; a failed request gives the fallback whose summary is `Error generating summary` |
| Summarizer.FailedCallStillSummarises | simple_solution.py:246-266 | for a non-empty batch, a failed model call still yields a truthy, fully shaped analysis with a non-empty summary |
| Rendering.ImpactIcon | simple_solution.py:296 | green iff positive, red iff negative, yellow otherwise |
| Rendering.ConfidenceIcon | simple_solution.py:297 | green iff high, yellow iff medium, red otherwise |
| Rendering.Render | simple_solution.py:281-316 | the body has the summary and the sentiment, the first `min(3, n)` key points, one entry per stock and per sector in order with their icons, key companies iff any, and implications iff non-empty |
| Rendering.FourKeyPointsRenderThree | simple_solution.py:288-289 | four key points render as the first three |
| Rendering.LaterKeyPointsDropped | simple_solution.py:288-289 | appending a key point after the third does not change the body |
| Distribution.Undelivered | simple_solution.py:320-331 | the failed list holds exactly the recipients whose send fails |
| Distribution.FanOut | simple_solution.py:320-339 | the sequential fan-out keeps every key, leaves rows that are not undeliverable recipients unchanged, and changes any other row at most by clearing `active` |
| Distribution.Deliver | simple_solution.py:268-339 | a raised delivery changes no row and attempts nobody; a body is rendered iff someone is attempted; every attempted id is an active row; the table keeps its keys |
| Distribution.FanOutDeregisters | simple_solution.py:320-339 | the sequential fan-out deactivates exactly the recipients whose send failed and whose deregistration succeeded, and leaves every other row as it was |
| Distribution.DeliverCharacterised | simple_solution.py:268-339 | a falsy summary or an empty active list sends nothing and changes nothing; a summary missing fields raises before any send; otherwise every active id is attempted once in list order, the rendered body is sent, the failures are the undeliverable recipients, and exactly the failed-and-deregistered ones end inactive |
| Distribution.SendAll | simple_solution.py:320-339 | the send loop attempts every recipient in order, records the failed ones, and ends with exactly the failed-and-deregistered ones deactivated |
| Distribution.SendStep | simple_solution.py:330-339 | one more attempted recipient appends its failure and adds its soft delete unless the delete faults |
| Distribution.SendSummaryToSubscribers | simple_solution.py:268-339 | the imperative pass yields exactly the outcome characterised above |
| Distribution.MiddleFailureScenario | simple_solution.py:320-339 | with the list `[1, 2, 3]` and the send to 2 failing, only 2 is recorded as failed and the active set ends as `{1, 3}` |
| Distribution.ThreeActiveListed | subscriber_db_sqlite.py:71-75 | three active ids 1, 2, 3 are listed as `[1, 2, 3]` |
| Monitor.Decide | simple_solution.py:356-365 | a batch that is empty or whose newest id is the cursor is skipped with nothing changed; otherwise the cursor moves to the newest id; a truthy summary is distributed, and only a falsy one is not sent; a failed model call is still distributed; a distribution that raises is never recorded as sent; a pass that distributes sets the last-processed time and the table to the delivery's; other outcomes keep them; an error comes only from a reply that lacks fields |
| Monitor.RunPass | simple_solution.py:352-365 | the batch comes from the feed, respects the window's cap and holds no empty text; a non-empty batch leaves the cursor at its newest id; a batch that is empty or repeats the cursor leaves the table, the cursor and the last-processed time unchanged with outcome "no new data", and an empty batch changes nothing but the reader's state; a new batch is processed, and one answered with a fully shaped analysis is distributed; a sent pass is the delivery of the batch's summary, did not raise, and takes the delivery's table and the current time; any other pass keeps the table and the last-processed time |
| Monitor.CursorIsNewestWithText | simple_solution.py:354-358 | on a healthy link the cursor ends on the first message with text among the first `cap` the channel yields |
| Monitor.RepeatedNewestIdSkips | simple_solution.py:356-358 | a pass whose batch has the same newest id as the previous pass's batch neither summarises nor distributes, and changes neither the cursor nor the table |
| Monitor.ErroredPassNotRetried | simple_solution.py:356-358 | a batch whose distribution raised is not summarised again, because the cursor advanced before summarising; the table stays as it was before the raising pass |
| Monitor.NewestHundredTwiceScenario | simple_solution.py:352-365 | two passes over a channel whose newest message is 100: the first processes it, the second fetches the same batch and skips it |

## Left out

- Telegram clients: connecting and authorising the bot and reader clients (simple_solution.py:70-93), and the reconnect the loop attempts after a connection error (simple_solution.py:370-387). The inline reconnect in the fetch is an input with three outcomes.
- Time: sleeps, the rate-limit pause between sends, `asyncio` scheduling and concurrency. A pass is one synchronous step.
- The time window: `offset_date` and the local timezone are the channel library's business. The feed input stands for what the iterator yields for this call.
- Error texts: the check for "disconnected" or "connection" in an error's text is a boolean on the lookup's or the iteration's fault. A lookup that first reports not-found and then raises on the `@` spelling is folded into one lookup fault.
- The language model: the request, the prompt text and `json.loads` are outside the model. Their outcome is the `Reply` input. The request text is not part of `Summarizer.Summarize`: the batch text the request embeds is `Summarizer.BatchText`, and the reply is taken as given rather than derived from it. The prompt around it is not modelled.
- Rendering layout: markdown, emoji glyphs, `.title()`, the generation timestamp and line layout are left out. `Body` keeps the structure and the values.
- Command handlers `/start`, `/stop`, `/help`, `/status`, `/force_update`, `/test` and `/subscribe_me`, the admin bootstrap and the entry point (simple_solution.py:389-641). Only their store calls are modelled, through the stores.
- session_generator.py, check_subscribers.py and config/settings.py are not part of this model.
- Channel.FetchRecentMessages: the window is whole minutes, not Python's float hours. The cap test `minutes / 60 >= 3` is exactly `minutes >= 180`, so the cap is unaffected.
- Registry.ActiveList: SQL fixes no row order. The model lists active ids ascending, which is the order SQLite scans a rowid table in. Contracts that hold for any order use only membership and uniqueness.
- Backends.AddAgreesExceptTimestamp: clocks are plain integers. The local and UTC clock readings are separate inputs, and their relation (the time zone offset) is not modelled.
- PostgresStore.Connect: the table is assumed present once the pool is open. A schema step that failed and left no table is not distinguished from one that failed on an existing table.
- PostgresStore: pool sizing, timeouts and the driver's own failures are collapsed into one fault flag per call. Integer width (`BIGINT`) and `int(user_id)` conversion failures are not modelled.
- Monitor: `last_processed_time` is the clock input. The loop's state is the cursor, that time and the reader's connection.

=== FILE: artifact.dfy ===
/** The structured analysis the language model is asked to return. Polarity,
    confidence and sentiment stay strings: the reply is parsed JSON and the
    code compares these fields with string literals. */
module Artifact {
  import opened Wrappers

  datatype Stock = Stock(
    ticker: string,
    companyName: string,
    impactType: string,
    impactReason: string,
    confidenceLevel: string,
    expectedMagnitude: string)

  datatype Sector = Sector(
    sectorName: string,
    impactType: string,
    impactReason: string,
    keyCompanies: seq<string>)

  datatype Analysis = Analysis(
    summary: string,
    stocks: seq<Stock>,
    sectors: seq<Sector>,
    sentiment: string,
    keyPoints: seq<string>,
    implications: string)

  /** What `json.loads` produced, as far as the rest of the program can tell:
      a value carrying every field rendering reads, a falsy value (`null`,
      `{}`, `""`, ...) that the `if summary` guards skip, or a truthy value
      missing some field, on which rendering raises. */
  datatype Parsed = Shaped(analysis: Analysis) | Falsy | Unshaped

  /** The summary as the pipeline hands it on (`None` for an empty batch). */
  type Summary = Option<Parsed>

  /** Python truthiness of the summary: what the `if summary` guards test. */
  predicate Truthy(s: Summary) {
    s.Some? && !s.value.Falsy?
  }
}

=== FILE: backends.dfy ===
/** How the two backends relate: on the same rows they report the same reads
    and make the same writes, except that a repeated subscription keeps its
    original `subscribed_at` in PostgreSQL and is stamped afresh in SQLite,
    and a failed write is an exception in PostgreSQL but `False` in SQLite. */
module Backends {
  import opened Wrappers
  import opened Registry
  import SqliteStore
  import PostgresStore

  /** Two tables hold the same ids with the same handle, name and flag. */
  predicate SameButTimestamps(a: Rows, b: Rows) {
    && a.Keys == b.Keys
    && forall k :: k in a ==>
         && a[k].username == b[k].username
         && a[k].firstName == b[k].firstName
         && a[k].active == b[k].active
  }

  /** Both adds agree up to `subscribed_at`. The two backends read different
      clocks: SQLite stores local time (`datetime.now()`), PostgreSQL UTC
      (`datetime.utcnow()`), and on a re-subscription PostgreSQL keeps the
      stored time where SQLite writes its clock. */
  lemma AddAgreesExceptTimestamp(rows: Rows, userId: int, u: Option<string>, f: Option<string>,
                                 localNow: int, utcNow: int)
    ensures
      var lite := SqliteStore.AddSubscriber(rows, userId, u, f, localNow, false).rows;
      var pg := PostgresStore.AddSubscriber(PostgresStore.Store(true, rows), userId, u, f, utcNow, false).value.rows;
      && SameButTimestamps(lite, pg)
      && (forall k :: k in rows && k != userId ==> lite[k].subscribedAt == pg[k].subscribedAt)
      && lite[userId].subscribedAt == localNow
      && pg[userId].subscribedAt == (if userId in rows then rows[userId].subscribedAt else utcNow)
  {
  }

  /** Both removes make the same table. */
  lemma RemoveAgrees(rows: Rows, userId: int)
    ensures
      SqliteStore.RemoveSubscriber(rows, userId, false).rows
        == PostgresStore.RemoveSubscriber(PostgresStore.Store(true, rows), userId, false).value.rows
  {
  }

  /** On the same rows both backends list the same active ids (in whatever
      order) and count the same number. */
  lemma ReadsAgree(rows: Rows)
    ensures forall id :: id in SqliteStore.GetActiveSubscribers(rows, false)
                     <==> id in PostgresStore.GetActiveSubscribers(PostgresStore.Store(true, rows), false)
    ensures SqliteStore.GetSubscriberCount(rows, false)
         == PostgresStore.GetSubscriberCount(PostgresStore.Store(true, rows), false)
  {
  }

  /** A failed write leaves both tables as they were; SQLite reports it as a
      `False` result, PostgreSQL as a raised error. */
  lemma WriteFailureSignalling(rows: Rows, userId: int, u: Option<string>, f: Option<string>, now: int)
    ensures SqliteStore.AddSubscriber(rows, userId, u, f, now, true) == SqliteStore.WriteResult(rows, false)
    ensures SqliteStore.RemoveSubscriber(rows, userId, true) == SqliteStore.WriteResult(rows, false)
    ensures PostgresStore.AddSubscriber(PostgresStore.Store(true, rows), userId, u, f, now, true).Err?
    ensures PostgresStore.RemoveSubscriber(PostgresStore.Store(true, rows), userId, true).Err?
  {
  }

  /** Concrete divergence: subscribed at time 1, subscribed again at time 2. */
  lemma ResubscriptionTimestampsDiverge()
    ensures
      var rows: Rows := map[7 := Subscriber(Some("bob"), Some("Bob"), 1, false)];
      && SqliteStore.AddSubscriber(rows, 7, Some("bob"), Some("Bob"), 2, false).rows[7].subscribedAt == 2
      && PostgresStore.AddSubscriber(PostgresStore.Store(true, rows), 7, Some("bob"), Some("Bob"), 2, false).value.rows[7].subscribedAt == 1
  {
  }
}

=== FILE: channel.dfy ===
/** Reading the monitored channel (`fetch_recent_messages`). The channel
    library is an oracle: the names it resolves, the messages its iterator
    would yield newest first for this call, and whether iteration raises. */
module Channel {
  import opened Wrappers

  /** A message as the fetch routine records it. */
  datatype Message = Message(id: int, date: int, text: string)

  /** Windows of at least this many minutes (3 hours) use the larger cap. */
  const LongWindowMinutes := 180
  const LongWindowCap := 500
  const ShortWindowCap := 50

  /** How many messages the iterator is asked for: `500 if hours >= 3 else 50`,
      with `hours = minutes / 60`. */
  function FetchCap(windowMinutes: int): (cap: nat)
    ensures cap == LongWindowCap <==> windowMinutes >= LongWindowMinutes
    ensures cap == ShortWindowCap <==> windowMinutes < LongWindowMinutes
  {
    if windowMinutes >= LongWindowMinutes then LongWindowCap else ShortWindowCap
  }

  /** `k` is the first position of `ms` holding a message with non-empty text. */
  predicate FirstWithText(ms: seq<Message>, k: int) {
    0 <= k < |ms| && ms[k].text != "" && forall j :: 0 <= j < k ==> ms[j].text == ""
  }

  /** The messages with non-empty text, in their original order. */
  function WithText(ms: seq<Message>): (r: seq<Message>)
    ensures |r| <= |ms|
    ensures forall m :: m in r <==> m in ms && m.text != ""
    ensures r == [] <==> forall i :: 0 <= i < |ms| ==> ms[i].text == ""
    ensures forall k :: FirstWithText(ms, k) ==> r != [] && r[0] == ms[k]
  {
    if ms == [] then []
    else if ms[0].text == "" then
      assert forall m :: m in ms <==> m == ms[0] || m in ms[1..];
      assert forall k :: FirstWithText(ms, k) ==> FirstWithText(ms[1..], k - 1) by {
        forall k | FirstWithText(ms, k) ensures FirstWithText(ms[1..], k - 1) {
          assert k != 0;
          forall j | 0 <= j < k - 1 ensures ms[1..][j].text == "" {
            assert ms[1..][j] == ms[j + 1];
          }
        }
      }
      WithText(ms[1..])
    else
      assert forall m :: m in ms <==> m == ms[0] || m in ms[1..];
      assert forall k :: FirstWithText(ms, k) ==> k == 0;
      [ms[0]] + WithText(ms[1..])
  }

  /** Filtering a concatenation filters each part and keeps them in order. */
  lemma {:induction false} WithTextAppend(a: seq<Message>, b: seq<Message>)
    ensures WithText(a + b) == WithText(a) + WithText(b)
    decreases |a|
  {
    if a == [] {
      assert a + b == b;
    } else {
      assert (a + b)[0] == a[0];
      assert (a + b)[1..] == a[1..] + b;
      WithTextAppend(a[1..], b);
    }
  }

  /** A single message is kept iff its text is non-empty. Together with
      `WithTextAppend` this determines the filter: the kept messages keep
      their relative order. */
  lemma WithTextSingle(m: Message)
    ensures WithText([m]) == if m.text != "" then [m] else []
  {
    assert [m][1..] == [];
  }

  /** Outcome of the inline reconnect attempted when the reader is down. */
  datatype Reconnect = Reauthorized | NotAuthorized | ReconnectRaised

  /** Whether a channel-library call raises an error the fetch routine's
      outer handler catches. `connectionError` stands for the error text
      mentioning a disconnection or a connection. */
  datatype LibraryFault = NoFault | Raised(connectionError: bool)

  /** What the channel library would do for this call: the names the lookup
      finds, whether the lookup raises anything other than not-found (for
      either spelling of the name), what the iterator yields newest first,
      and whether the iteration raises. */
  datatype Source = Source(resolvable: set<string>, lookupFault: LibraryFault,
                           feed: seq<Message>, fault: LibraryFault)

  datatype Fetched = Fetched(messages: seq<Message>, readerConnected: bool)

  /** The channel name resolves directly or with an `@` prefix. */
  predicate Resolves(source: Source, target: string) {
    target in source.resolvable || "@" + target in source.resolvable
  }

  /** The lookup finds the channel and iteration runs to the end. */
  predicate Readable(source: Source, target: string) {
    source.lookupFault == NoFault && Resolves(source, target) && source.fault == NoFault
  }

  /** The outer handler sees an error whose text names the connection: from
      the lookup, or from iterating a channel the lookup found. */
  predicate ConnectionErrorRaised(source: Source, target: string) {
    || source.lookupFault == Raised(true)
    || (source.lookupFault == NoFault && Resolves(source, target) && source.fault == Raised(true))
  }

  /** The first `cap` messages the iterator yields (all of them if fewer). */
  function Take(feed: seq<Message>, cap: nat): (r: seq<Message>)
    ensures |r| <= cap && |r| <= |feed|
    ensures forall i :: 0 <= i < |feed| && i < cap ==> i < |r| && r[i] == feed[i]
    ensures forall m :: m in r ==> m in feed
  {
    if |feed| <= cap then feed else feed[..cap]
  }

  /** The reader can read: it was connected, or the inline reconnect succeeded. */
  predicate ReaderReady(readerConnected: bool, reconnect: Reconnect) {
    readerConnected || reconnect == Reauthorized
  }

  /** Reading from a ready reader: resolve the channel, iterate up to the cap,
      drop empty texts; `[]` when the lookup fails or raises, or iteration raises. */
  function ReadChannel(source: Source, target: string, cap: nat): (r: seq<Message>)
    ensures |r| <= cap
    ensures forall m :: m in r ==> m.text != "" && m in source.feed
    ensures forall m :: m in r ==> m in Take(source.feed, cap)
    ensures r != [] ==> Readable(source, target)
    ensures Readable(source, target) ==>
      forall i :: 0 <= i < |source.feed| && i < cap && source.feed[i].text != "" ==> source.feed[i] in r
    ensures Readable(source, target) ==>
      forall k :: k < cap && FirstWithText(source.feed, k) ==> r != [] && r[0] == source.feed[k]
  {
    if !Readable(source, target) then []
    else
      var taken := Take(source.feed, cap);
      assert forall i :: 0 <= i < |source.feed| && i < cap ==> source.feed[i] in taken by {
        forall i | 0 <= i < |source.feed| && i < cap ensures source.feed[i] in taken {
          assert taken[i] == source.feed[i];
        }
      }
      assert forall k :: k < cap && FirstWithText(source.feed, k) ==> FirstWithText(taken, k) by {
        forall k | k < cap && FirstWithText(source.feed, k) ensures FirstWithText(taken, k) {
          forall j | 0 <= j < k ensures taken[j].text == "" {
            assert taken[j] == source.feed[j];
          }
        }
      }
      WithText(taken)
  }

  /** The fetch routine: reconnect the reader if needed, then read with the
      window's cap. Every failure yields `[]`; a lookup or iteration error
      whose text names the connection also disconnects the reader. */
  function FetchRecentMessages(readerConnected: bool, reconnect: Reconnect, source: Source,
                               target: string, windowMinutes: int): (r: Fetched)
    ensures |r.messages| <= FetchCap(windowMinutes)
    ensures forall m :: m in r.messages ==> m.text != "" && m in source.feed
    ensures forall m :: m in r.messages ==> m in Take(source.feed, FetchCap(windowMinutes))
    ensures r.messages != [] ==> ReaderReady(readerConnected, reconnect) && Readable(source, target)
    ensures !ReaderReady(readerConnected, reconnect) ==> r.messages == []
    ensures ReaderReady(readerConnected, reconnect) && Readable(source, target) ==>
      forall i :: 0 <= i < |source.feed| && i < FetchCap(windowMinutes) && source.feed[i].text != "" ==> source.feed[i] in r.messages
    ensures ReaderReady(readerConnected, reconnect) && Readable(source, target) ==>
      forall k :: k < FetchCap(windowMinutes) && FirstWithText(source.feed, k) ==> r.messages != [] && r.messages[0] == source.feed[k]
    ensures !r.readerConnected <==>
      (!readerConnected && reconnect == ReconnectRaised)
      || (ReaderReady(readerConnected, reconnect) && ConnectionErrorRaised(source, target))
  {
    if !ReaderReady(readerConnected, reconnect) then Fetched([], reconnect != ReconnectRaised)
    else
      var stillConnected := !ConnectionErrorRaised(source, target);
      Fetched(ReadChannel(source, target, FetchCap(windowMinutes)), stillConnected)
  }
}

=== FILE: distribution.dfy ===
/** `send_summary_to_subscribers`: render once, then send to every active
    subscriber in turn. The transport is an oracle: `undeliverable` holds the
    recipients whose send raises, and `removeFaults` those whose
    deregistration fails as well. Each recipient is attempted once, so these
    sets say everything a per-attempt flag list would. */
module Distribution {
  import opened Wrappers
  import opened Registry
  import opened Artifact
  import opened Rendering
  import SqliteStore

  /** One distribution pass: the table afterwards, the body sent (if any),
      the recipients attempted and those whose send failed, both in order,
      and whether the pass raised. */
  datatype Delivery = Delivery(rows: Rows, body: Option<Body>, attempted: seq<int>,
                               failed: seq<int>, raised: bool)

  /** The recipients of `rs` whose send fails, in order. */
  function Undelivered(rs: seq<int>, undeliverable: set<int>): (r: seq<int>)
    ensures forall id :: id in r <==> id in rs && id in undeliverable
    decreases |rs|
  {
    if rs == [] then []
    else
      var init := rs[..|rs| - 1];
      var last := rs[|rs| - 1];
      assert forall id :: id in rs <==> id in init || id == last;
      Undelivered(init, undeliverable) + (if last in undeliverable then [last] else [])
  }

  /** The recipients of `rs` that end up deactivated: the send failed and
      the deregistration did not. */
  function Dropped(rs: seq<int>, undeliverable: set<int>, removeFaults: set<int>): set<int> {
    set id | id in rs && id in undeliverable && id !in removeFaults
  }

  /** The source's loop read as a recursion: each recipient in list order,
      and on a failed send the SQLite soft delete of that recipient alone. */
  function FanOut(rows: Rows, rs: seq<int>, undeliverable: set<int>, removeFaults: set<int>): (r: Rows)
    ensures r.Keys == rows.Keys
    ensures forall k :: k in rows && (k !in rs || k !in undeliverable) ==> r[k] == rows[k]
    ensures forall k :: k in rows ==> r[k] == rows[k] || r[k] == rows[k].(active := false)
    decreases |rs|
  {
    if rs == [] then rows
    else
      var id := rs[0];
      var next := if id in undeliverable
                  then SqliteStore.RemoveSubscriber(rows, id, id in removeFaults).rows
                  else rows;
      FanOut(next, rs[1..], undeliverable, removeFaults)
  }

  /** Failure isolation: the sequential fan-out deactivates exactly the
      recipients whose send failed and whose deregistration succeeded, and
      leaves every other row as it was. */
  lemma {:induction false} FanOutDeregisters(rows: Rows, rs: seq<int>, undeliverable: set<int>, removeFaults: set<int>)
    ensures FanOut(rows, rs, undeliverable, removeFaults) == Deregistered(rows, Dropped(rs, undeliverable, removeFaults))
    decreases |rs|
  {
    if rs == [] {
      DeregisteredNone(rows);
      assert Dropped(rs, undeliverable, removeFaults) == {};
    } else {
      var id := rs[0];
      var rest := Dropped(rs[1..], undeliverable, removeFaults);
      assert forall x :: x in rs <==> x == id || x in rs[1..];
      if id in undeliverable && id !in removeFaults {
        var next := Deactivate(rows, id);
        FanOutDeregisters(next, rs[1..], undeliverable, removeFaults);
        DeactivateThenDeregister(rows, id, rest);
        assert Dropped(rs, undeliverable, removeFaults) == {id} + rest;
      } else {
        FanOutDeregisters(rows, rs[1..], undeliverable, removeFaults);
        assert Dropped(rs, undeliverable, removeFaults) == rest;
      }
    }
  }

  /** The pass as a whole: nothing is sent for a falsy summary or an empty
      active list; a summary missing fields raises while rendering, before
      any send; otherwise the fan-out runs over the active list. */
  function Deliver(rows: Rows, summary: Summary, readFault: bool,
                   undeliverable: set<int>, removeFaults: set<int>): (d: Delivery)
    ensures d.raised ==> d.rows == rows && d.attempted == [] && d.body.None?
    ensures d.body.None? <==> d.attempted == []
    ensures forall id :: id in d.attempted ==> id in rows && rows[id].active
    ensures d.rows.Keys == rows.Keys
  {
    if !Truthy(summary) then Delivery(rows, None, [], [], false)
    else
      var rs := SqliteStore.GetActiveSubscribers(rows, readFault);
      if rs == [] then Delivery(rows, None, [], [], false)
      else if summary.value.Unshaped? then Delivery(rows, None, [], [], true)
      else Delivery(FanOut(rows, rs, undeliverable, removeFaults), Some(Render(summary.value.analysis)),
                    rs, Undelivered(rs, undeliverable), false)
  }

  /** What a pass guarantees. A falsy summary or an empty active list (also
      what a failed read gives) sends nothing; a summary missing fields
      raises before any send; otherwise every active id is attempted once,
      in list order, the failed sends are exactly the undeliverable
      recipients, and exactly the failed-and-deregistered ones end inactive. */
  lemma DeliverCharacterised(rows: Rows, summary: Summary, readFault: bool,
                             undeliverable: set<int>, removeFaults: set<int>)
    ensures var d := Deliver(rows, summary, readFault, undeliverable, removeFaults);
      var rs := SqliteStore.GetActiveSubscribers(rows, readFault);
      && (!Truthy(summary) || rs == [] ==> d == Delivery(rows, None, [], [], false))
      && (Truthy(summary) && rs != [] && summary.value.Unshaped? ==> d == Delivery(rows, None, [], [], true))
      && (Truthy(summary) && summary.value.Shaped? ==>
            && !d.raised
            && d.attempted == rs
            && (rs != [] ==> d.body == Some(Render(summary.value.analysis)))
            && (forall id :: id in d.failed <==> id in rs && id in undeliverable)
            && d.rows == Deregistered(rows, Dropped(rs, undeliverable, removeFaults)))
  {
    var rs := SqliteStore.GetActiveSubscribers(rows, readFault);
    if rs == [] {
      DeregisteredNone(rows);
      assert Dropped(rs, undeliverable, removeFaults) == {};
    } else {
      FanOutDeregisters(rows, rs, undeliverable, removeFaults);
    }
  }

  /** The sequential send loop over `recipients`: each attempted once, in
      order; a failed send is recorded and soft-deletes that recipient alone. */
  method SendAll(rows: Rows, recipients: seq<int>, undeliverable: set<int>, removeFaults: set<int>)
    returns (current: Rows, attempted: seq<int>, failed: seq<int>)
    ensures attempted == recipients
    ensures failed == Undelivered(recipients, undeliverable)
    ensures current == Deregistered(rows, Dropped(recipients, undeliverable, removeFaults))
  {
    current := rows;
    attempted := [];
    failed := [];
    var i := 0;
    DeregisteredNone(rows);
    while i < |recipients|
      invariant 0 <= i <= |recipients|
      invariant attempted == recipients[..i]
      invariant failed == Undelivered(recipients[..i], undeliverable)
      invariant current == Deregistered(rows, Dropped(recipients[..i], undeliverable, removeFaults))
    {
      var id := recipients[i];
      assert recipients[..i + 1] == recipients[..i] + [id];
      SendStep(rows, recipients[..i], id, undeliverable, removeFaults);
      attempted := attempted + [id];
      if id in undeliverable {
        failed := failed + [id];
        var removal := SqliteStore.RemoveSubscriber(current, id, id in removeFaults);
        current := removal.rows;
      }
      i := i + 1;
    }
    assert recipients[..|recipients|] == recipients;
  }

  /** `send_summary_to_subscribers`: the pass `Deliver` describes, performed
      by the send loop. */
  method SendSummaryToSubscribers(rows: Rows, summary: Summary, readFault: bool,
                                  undeliverable: set<int>, removeFaults: set<int>) returns (d: Delivery)
    ensures d == Deliver(rows, summary, readFault, undeliverable, removeFaults)
  {
    if !Truthy(summary) {
      return Delivery(rows, None, [], [], false);
    }
    var recipients := SqliteStore.GetActiveSubscribers(rows, readFault);
    if recipients == [] {
      return Delivery(rows, None, [], [], false);
    }
    if !summary.value.Shaped? {
      return Delivery(rows, None, [], [], true);
    }
    var body := Render(summary.value.analysis);
    var current, attempted, failed := SendAll(rows, recipients, undeliverable, removeFaults);
    FanOutDeregisters(rows, recipients, undeliverable, removeFaults);
    d := Delivery(current, Some(body), attempted, failed, false);
  }

  /** One more attempted recipient: its failure is appended to the failed
      list, and the table gains its soft delete unless that delete faults. */
  lemma SendStep(rows: Rows, before: seq<int>, id: int, undeliverable: set<int>, removeFaults: set<int>)
    ensures Undelivered(before + [id], undeliverable)
         == Undelivered(before, undeliverable) + (if id in undeliverable then [id] else [])
    ensures var current := Deregistered(rows, Dropped(before, undeliverable, removeFaults));
      Deregistered(rows, Dropped(before + [id], undeliverable, removeFaults))
        == if id in undeliverable then SqliteStore.RemoveSubscriber(current, id, id in removeFaults).rows else current
  {
    assert (before + [id])[..|before|] == before;
    assert forall x :: x in before + [id] <==> x in before || x == id;
    var prior := Dropped(before, undeliverable, removeFaults);
    if id in undeliverable && id !in removeFaults {
      DeactivateExtends(rows, prior, id);
      assert Dropped(before + [id], undeliverable, removeFaults) == prior + {id};
    } else {
      assert Dropped(before + [id], undeliverable, removeFaults) == prior;
    }
  }

  /** Distribution list `[1, 2, 3]`, the send to 2 fails: only 2 is
      recorded as failed, and the active set ends as `{1, 3}`. */
  lemma MiddleFailureScenario(rows: Rows)
    requires ActiveIds(rows) == {1, 2, 3}
    ensures Undelivered([1, 2, 3], {2}) == [2]
    ensures ActiveIds(FanOut(rows, [1, 2, 3], {2}, {})) == {1, 3}
  {
    FanOutDeregisters(rows, [1, 2, 3], {2}, {});
    assert Dropped([1, 2, 3], {2}, {}) == {2};
    ActiveAfterDeregister(rows, {2});
    assert {1, 2, 3} - {2} == {1, 3};
    assert [1, 2, 3][..2] == [1, 2];
    assert [1, 2][..1] == [1];
    assert [1][..0] == [];
  }

  /** Three active subscribers are listed as `[1, 2, 3]`. */
  lemma ThreeActiveListed(rows: Rows)
    requires ActiveIds(rows) == {1, 2, 3}
    ensures SqliteStore.GetActiveSubscribers(rows, false) == [1, 2, 3]
  {
    SortedIdsUnique({1, 2, 3}, [1, 2, 3]);
  }
}

=== FILE: monitor.dfy ===
/** One pass of `monitor_and_summarize`: fetch the window, skip a batch whose
    newest id is the cursor, otherwise advance the cursor, summarise and
    distribute. The sleeps between passes and the reconnect attempted after
    a connection error are not part of a pass here. */
module Monitor {
  import opened Wrappers
  import opened Registry
  import opened Channel
  import opened Artifact
  import opened Summarizer
  import opened Distribution

  /** The loop's state: the dedup cursor (`last_message_id`), the time of the
      last completed distribution, and whether the reader client is up. */
  datatype State = State(cursor: Option<int>, lastProcessed: int, readerConnected: bool)

  /** Everything a pass observes from outside: the reader's reconnect
      outcome, the channel, the model's reply, the store's read fault, the
      recipients whose send fails, those whose deregistration fails, and the
      clock. */
  datatype World = World(reconnect: Reconnect, source: Source, reply: Reply, readFault: bool,
                         undeliverable: set<int>, removeFaults: set<int>, now: int)

  /** How a pass ended: the batch was not new; it was summarised but the
      summary was falsy; it was distributed; or distribution raised and the
      loop's error handler took over. */
  datatype Outcome = NoNewData | NotSent | Sent(delivery: Delivery) | Errored

  datatype Pass = Pass(state: State, rows: Rows, batch: seq<Message>, outcome: Outcome)

  /** Freshly started: no cursor, the start time as last processed, reader connected. */
  function Initial(now: int): State {
    State(None, now, true)
  }

  /** The dedup test: a non-empty batch whose newest id differs from the cursor. */
  predicate IsNew(batch: seq<Message>, cursor: Option<int>) {
    batch != [] && (cursor.None? || batch[0].id != cursor.value)
  }

  /** What a pass does with the batch it fetched (`st` already records the
      reader's state after the fetch): a batch that is not new is skipped;
      otherwise the cursor moves to its newest id before summarising, and
      the last-processed time moves only when distribution completes. */
  function Decide(st: State, rows: Rows, batch: seq<Message>, w: World): (p: Pass)
    ensures p.batch == batch && p.state.readerConnected == st.readerConnected
    ensures !IsNew(batch, st.cursor) ==> p == Pass(st, rows, batch, NoNewData)
    ensures IsNew(batch, st.cursor) ==> p.outcome != NoNewData
    ensures batch != [] ==> p.state.cursor == Some(batch[0].id)
    ensures p.outcome.Sent? ==> p.state.lastProcessed == w.now && p.rows == p.outcome.delivery.rows
    ensures !p.outcome.Sent? ==> p.state.lastProcessed == st.lastProcessed && p.rows == rows
    ensures p.outcome.Sent? ==>
      p.outcome.delivery == Deliver(rows, Summarize(batch, w.reply), w.readFault, w.undeliverable, w.removeFaults)
    ensures IsNew(batch, st.cursor) && !w.reply.Replied? ==> p.outcome.Sent?
    ensures IsNew(batch, st.cursor) ==> (p.outcome.NotSent? <==> !Truthy(Summarize(batch, w.reply)))
    ensures p.outcome.Sent? ==> !p.outcome.delivery.raised
    ensures IsNew(batch, st.cursor) && Truthy(Summarize(batch, w.reply))
            && !Deliver(rows, Summarize(batch, w.reply), w.readFault, w.undeliverable, w.removeFaults).raised
            ==> p.outcome.Sent?
    ensures p.outcome.Errored? ==> w.reply == Replied(Unshaped)
  {
    if !IsNew(batch, st.cursor) then
      assert batch != [] ==> st.cursor == Some(batch[0].id);
      Pass(st, rows, batch, NoNewData)
    else
      var st1 := st.(cursor := Some(batch[0].id));
      var summary := Summarize(batch, w.reply);
      if !Truthy(summary) then
        Pass(st1, rows, batch, NotSent)
      else
        var d := Deliver(rows, summary, w.readFault, w.undeliverable, w.removeFaults);
        if d.raised then Pass(st1, rows, batch, Errored)
        else Pass(st1.(lastProcessed := w.now), d.rows, batch, Sent(d))
  }

  /** One pass: fetch with the interval as the window (`hours = minutes / 60`),
      then decide. The batch respects the cap and holds no empty text. */
  function RunPass(st: State, rows: Rows, target: string, intervalMinutes: int, w: World): (p: Pass)
    ensures |p.batch| <= FetchCap(intervalMinutes)
    ensures forall m :: m in p.batch ==> m.text != ""
    ensures p.batch != [] ==> p.state.cursor == Some(p.batch[0].id)
    ensures p.batch == [] ==> p.state == st.(readerConnected := p.state.readerConnected)
    ensures !IsNew(p.batch, st.cursor) ==>
      && p.rows == rows && p.outcome == NoNewData
      && p.state.cursor == st.cursor && p.state.lastProcessed == st.lastProcessed
    ensures IsNew(p.batch, st.cursor) ==> p.outcome != NoNewData
    ensures IsNew(p.batch, st.cursor) && w.reply.Replied? && w.reply.parsed.Shaped? ==> p.outcome.Sent?
    ensures forall m :: m in p.batch ==> m in w.source.feed
    ensures p.outcome.Sent? ==>
      && p.outcome.delivery == Deliver(rows, Summarize(p.batch, w.reply), w.readFault, w.undeliverable, w.removeFaults)
      && !p.outcome.delivery.raised
      && p.rows == p.outcome.delivery.rows
      && p.state.lastProcessed == w.now
    ensures !p.outcome.Sent? ==> p.rows == rows && p.state.lastProcessed == st.lastProcessed
  {
    var fetched := FetchRecentMessages(st.readerConnected, w.reconnect, w.source, target, intervalMinutes);
    Decide(st.(readerConnected := fetched.readerConnected), rows, fetched.messages, w)
  }

  /** On a healthy link the cursor lands on the newest message with text
      among the first `cap` the channel yields. */
  lemma CursorIsNewestWithText(st: State, rows: Rows, target: string, intervalMinutes: int, w: World, k: int)
    requires ReaderReady(st.readerConnected, w.reconnect)
    requires Readable(w.source, target)
    requires k < FetchCap(intervalMinutes) && FirstWithText(w.source.feed, k)
    ensures RunPass(st, rows, target, intervalMinutes, w).state.cursor == Some(w.source.feed[k].id)
  {
  }

  /** Dedup: when the next pass fetches a batch whose newest id equals that
      of the previous pass's batch, it neither summarises nor distributes,
      whatever became of the previous pass. */
  lemma RepeatedNewestIdSkips(st: State, rows: Rows, target: string, intervalMinutes: int, w1: World, w2: World)
    ensures
      var p1 := RunPass(st, rows, target, intervalMinutes, w1);
      var p2 := RunPass(p1.state, p1.rows, target, intervalMinutes, w2);
      p1.batch != [] && p2.batch != [] && p1.batch[0].id == p2.batch[0].id ==>
        && p2.outcome == NoNewData
        && p2.rows == p1.rows
        && p2.state.cursor == p1.state.cursor
        && p2.state.lastProcessed == p1.state.lastProcessed
  {
  }

  /** A new batch is never summarised twice, even when the first attempt
      raised: the cursor was advanced before summarising. */
  lemma ErroredPassNotRetried(st: State, rows: Rows, target: string, intervalMinutes: int, w1: World, w2: World)
    ensures
      var p1 := RunPass(st, rows, target, intervalMinutes, w1);
      var p2 := RunPass(p1.state, p1.rows, target, intervalMinutes, w2);
      p1.outcome.Errored? && p2.batch != [] && p2.batch[0].id == p1.batch[0].id ==>
        p2.outcome == NoNewData && p2.rows == rows
  {
  }

  /** Two passes both fetching a batch whose newest id is 100: the second skips. */
  lemma NewestHundredTwiceScenario(rows: Rows, w: World)
    requires w.source == Source({"marketfeed"}, NoFault, [Message(100, 0, "Fed holds rates")], NoFault)
    ensures
      var p1 := RunPass(Initial(0), rows, "marketfeed", 180, w);
      var p2 := RunPass(p1.state, p1.rows, "marketfeed", 180, w);
      && p1.outcome != NoNewData
      && p2.batch == p1.batch
      && p2.outcome == NoNewData
  {
    var p1 := RunPass(Initial(0), rows, "marketfeed", 180, w);
    assert p1.batch == [Message(100, 0, "Fed holds rates")];
    var p2 := RunPass(p1.state, p1.rows, "marketfeed", 180, w);
    assert p2.batch == [Message(100, 0, "Fed holds rates")];
  }
}

=== FILE: postgres_store.dfy ===
/** The networked relational backend (`subscriber_db.py`), reached through a
    connection pool. A pool that was never created or has been closed makes
    every statement raise, exactly like a backend fault. */
module PostgresStore {
  import opened Wrappers
  import opened Registry

  datatype Store = Store(poolOpen: bool, rows: Rows)

  /** Before `connect`: no pool. */
  function Disconnected(rows: Rows): Store {
    Store(false, rows)
  }

  /** Whether the configured connection target counts as set; Python treats
      an empty string as unset. */
  predicate UrlConfigured(url: Option<string>) {
    url.Some? && url.value != ""
  }

  /** What `connect` leaves behind: the store afterwards and the error it
      raised, if any. */
  datatype Connection = Connection(store: Store, error: Option<StoreError>)

  /** `connect`: refuses an unset `DATABASE_URL` with a configuration error
      before touching the network. Otherwise it creates the pool and only
      then ensures the table (`IF NOT EXISTS`, so existing rows stay). A
      failed pool creation leaves the previous pool as it was; a failed
      schema step is re-raised but the new pool stays assigned and open. */
  function Connect(s: Store, url: Option<string>, poolCreated: bool, schemaReady: bool): (r: Connection)
    ensures r.error == Some(ConfigMissing) <==> !UrlConfigured(url)
    ensures r.error.None? <==> UrlConfigured(url) && poolCreated && schemaReady
    ensures r.error.Some? ==> r.error == Some(ConfigMissing) || r.error == Some(DatabaseError)
    ensures r.store.rows == s.rows
    ensures r.store.poolOpen <==> s.poolOpen || (UrlConfigured(url) && poolCreated)
  {
    if !UrlConfigured(url) then Connection(s, Some(ConfigMissing))
    else if !poolCreated then Connection(s, Some(DatabaseError))
    else if !schemaReady then Connection(Store(true, s.rows), Some(DatabaseError))
    else Connection(Store(true, s.rows), None)
  }

  /** A `connect` that raised in the schema step still leaves a usable pool:
      a later add without a backend fault succeeds. */
  lemma SchemaFailureKeepsPool(rows: Rows, url: Option<string>, userId: int,
                               u: Option<string>, f: Option<string>, now: int)
    requires UrlConfigured(url)
    ensures
      var c := Connect(Disconnected(rows), url, true, false);
      && c.error == Some(DatabaseError)
      && AddSubscriber(c.store, userId, u, f, now, false).Ok?
  {
  }

  /** `add_subscriber`: `INSERT ... ON CONFLICT DO UPDATE SET active, username,
      first_name`; a new id gets the current time, a known id keeps its
      `subscribed_at`. Errors propagate to the caller. */
  function AddSubscriber(s: Store, userId: int, username: Option<string>,
                         firstName: Option<string>, now: int, fault: bool): (r: Result<Store, StoreError>)
    ensures r.Err? <==> fault || !s.poolOpen
    ensures r.Err? ==> r.error == DatabaseError
    ensures r.Ok? ==> r.value.poolOpen && r.value.rows.Keys == s.rows.Keys + {userId}
    ensures r.Ok? ==> var row := r.value.rows[userId];
      && row.active && row.username == username && row.firstName == firstName
      && row.subscribedAt == (if userId in s.rows then s.rows[userId].subscribedAt else now)
    ensures r.Ok? ==> forall k :: k in s.rows && k != userId ==> r.value.rows[k] == s.rows[k]
  {
    if fault || !s.poolOpen then Err(DatabaseError)
    else
      var since := if userId in s.rows then s.rows[userId].subscribedAt else now;
      Ok(s.(rows := s.rows[userId := Subscriber(username, firstName, since, true)]))
  }

  /** `remove_subscriber`: soft delete of the matching row, a no-op for an
      unknown id; errors propagate to the caller. */
  function RemoveSubscriber(s: Store, userId: int, fault: bool): (r: Result<Store, StoreError>)
    ensures r.Err? <==> fault || !s.poolOpen
    ensures r.Ok? ==> r.value.poolOpen && r.value.rows.Keys == s.rows.Keys
    ensures r.Ok? && userId in s.rows ==> !r.value.rows[userId].active
    ensures r.Ok? && userId in s.rows ==> r.value.rows[userId] == s.rows[userId].(active := false)
    ensures r.Ok? && userId !in s.rows ==> r.value == s
    ensures r.Ok? ==> forall k :: k in s.rows && k != userId ==> r.value.rows[k] == s.rows[k]
  {
    if fault || !s.poolOpen then Err(DatabaseError)
    else Ok(s.(rows := Deactivate(s.rows, userId)))
  }

  /** `get_active_subscribers`: exactly the active ids, or `[]` on error. */
  function GetActiveSubscribers(s: Store, fault: bool): (r: seq<int>)
    ensures fault || !s.poolOpen ==> r == []
    ensures !fault && s.poolOpen ==> forall id :: id in r <==> id in s.rows && s.rows[id].active
    ensures forall i, j :: 0 <= i < j < |r| ==> r[i] != r[j]
  {
    if fault || !s.poolOpen then [] else ActiveList(s.rows)
  }

  /** `get_subscriber_count`: the number of active rows, or 0 on error. */
  function GetSubscriberCount(s: Store, fault: bool): (r: nat)
    ensures fault || !s.poolOpen ==> r == 0
    ensures r == |GetActiveSubscribers(s, fault)|
  {
    CountIsListLength(s.rows);
    if fault || !s.poolOpen then 0 else ActiveCount(s.rows)
  }

  /** `close`: closes the pool if there is one; later statements raise. */
  function Close(s: Store): (r: Store)
    ensures r.rows == s.rows && !r.poolOpen
    ensures forall id, u, f, now, fault :: AddSubscriber(r, id, u, f, now, fault).Err?
    ensures forall id, fault :: RemoveSubscriber(r, id, fault).Err?
  {
    s.(poolOpen := false)
  }

  /** Subscribe, unsubscribe, subscribe again on an open pool: the row is
      active with the handle and name given last, and carries the time the
      id was first stored, which is `t1` only for an id new to the table. */
  lemma Resubscribe(s: Store, userId: int,
                    u1: Option<string>, f1: Option<string>, t1: int,
                    u2: Option<string>, f2: Option<string>, t2: int)
    requires s.poolOpen
    ensures
      var r1 := AddSubscriber(s, userId, u1, f1, t1, false).value;
      var r2 := RemoveSubscriber(r1, userId, false).value;
      var r3 := AddSubscriber(r2, userId, u2, f2, t2, false);
      && r3.Ok?
      && r3.value.rows[userId]
           == Subscriber(u2, f2, if userId in s.rows then s.rows[userId].subscribedAt else t1, true)
      && userId in GetActiveSubscribers(r3.value, false)
  {
  }

  /** Repeating an add with the same arguments changes nothing further. */
  lemma AddIdempotent(s: Store, userId: int, u: Option<string>, f: Option<string>, t1: int, t2: int)
    requires s.poolOpen
    ensures
      var once := AddSubscriber(s, userId, u, f, t1, false).value;
      AddSubscriber(once, userId, u, f, t2, false) == Ok(once)
  {
    var once := AddSubscriber(s, userId, u, f, t1, false).value;
    var twice := AddSubscriber(once, userId, u, f, t2, false).value;
    assert twice.rows.Keys == once.rows.Keys;
    assert twice.rows == once.rows;
  }

  /** From an empty table, subscribing 42 gives the active list `[42]` and count 1. */
  lemma EmptyStoreScenario()
    ensures
      var s := AddSubscriber(Store(true, map[]), 42, Some("alice"), Some("Alice"), 0, false).value;
      && GetActiveSubscribers(s, false) == [42]
      && GetSubscriberCount(s, false) == 1
  {
    var s := AddSubscriber(Store(true, map[]), 42, Some("alice"), Some("Alice"), 0, false).value;
    var list := GetActiveSubscribers(s, false);
    assert s.rows.Keys == {42};
    assert 42 in list;
    assert ActiveIds(s.rows) == {42};
    assert |list| == 1;
  }
}

=== FILE: registry.dfy ===
/** The `subscribers` relation shared by both persistence backends:
    one row per user id, never physically deleted. */
module Registry {
  import opened Wrappers

  /** One row: display handle, display name, subscription time, active flag. */
  datatype Subscriber = Subscriber(
    username: Option<string>,
    firstName: Option<string>,
    subscribedAt: int,
    active: bool)

  /** The table, keyed by its primary key `user_id`. */
  type Rows = map<int, Subscriber>

  /** Why a store operation did not complete. */
  datatype StoreError =
    | ConfigMissing    // the connection target is not configured
    | DatabaseError    // the backend raised while executing a statement

  /** The ids whose `active` flag is set. */
  function ActiveIds(rows: Rows): set<int> {
    set id | id in rows && rows[id].active
  }

  /** The number of active rows, as `SELECT COUNT(*) ... WHERE active` reports it. */
  function ActiveCount(rows: Rows): nat {
    |ActiveIds(rows)|
  }

  /** A set is empty or has a member. */
  lemma EmptyOrInhabited(s: set<int>)
    ensures s == {} || exists y :: y in s
  {
    if forall x :: x !in s {
      assert s == {};
    }
  }

  /** Every finite non-empty set of ids has a least element. */
  lemma {:induction false} MinExists(s: set<int>)
    requires s != {}
    ensures exists m :: m in s && forall x :: x in s ==> m <= x
    decreases |s|
  {
    EmptyOrInhabited(s);
    var y :| y in s;
    var rest := s - {y};
    if rest == {} {
      forall x | x in s ensures y <= x {
        assert x !in rest;
      }
    } else {
      MinExists(rest);
      var m :| m in rest && forall x :: x in rest ==> m <= x;
      var least := if y < m then y else m;
      forall x | x in s ensures least <= x {
        if x != y { assert x in rest; }
      }
      assert least in s;
    }
  }

  /** The least id of a non-empty set. */
  function Least(s: set<int>): (m: int)
    requires s != {}
    ensures m in s
    ensures forall x :: x in s ==> m <= x
  {
    MinExists(s);
    var m :| m in s && forall x :: x in s ==> m <= x;
    m
  }

  /** The ids of `s` in ascending order, each exactly once. */
  function SortedIds(s: set<int>): (r: seq<int>)
    ensures |r| == |s|
    ensures forall x :: x in r <==> x in s
    ensures forall i, j :: 0 <= i < j < |r| ==> r[i] < r[j]
    decreases |s|
  {
    if s == {} then []
    else
      var m := Least(s);
      var smaller := s - {m};
      assert |smaller| == |s| - 1;
      var rest := SortedIds(smaller);
      assert forall x :: x in s <==> x == m || x in smaller;
      assert forall i :: 0 <= i < |rest| ==> m < rest[i] by {
        forall i | 0 <= i < |rest| ensures m < rest[i] {
          assert rest[i] in smaller;
        }
      }
      [m] + rest
  }

  /** Each id is listed before every larger one. */
  predicate Increasing(r: seq<int>) {
    forall i, j :: 0 <= i < j < |r| ==> r[i] < r[j]
  }

  /** `r` lists exactly the ids of `s`. */
  ghost predicate Lists(r: seq<int>, s: set<int>) {
    forall x :: x in r <==> x in s
  }

  /** The head of a strictly increasing listing of `s` is the least id of `s`. */
  lemma HeadIsLeast(s: set<int>, r: seq<int>)
    requires r != []
    requires Increasing(r) && Lists(r, s)
    ensures s != {} && Least(s) == r[0]
  {
    assert r[0] in r;
    forall x | x in s ensures r[0] <= x {
      var k :| 0 <= k < |r| && r[k] == x;
      assert k == 0 || r[0] < r[k];
    }
  }

  /** The tail of a strictly increasing listing of `s` lists `s` without its head. */
  lemma TailLists(s: set<int>, r: seq<int>)
    requires r != []
    requires Increasing(r) && Lists(r, s)
    ensures Increasing(r[1..]) && Lists(r[1..], s - {r[0]})
  {
    var tail := r[1..];
    forall i, j | 0 <= i < j < |tail| ensures tail[i] < tail[j] {
      assert tail[i] == r[i + 1] && tail[j] == r[j + 1];
    }
    forall x ensures x in tail <==> x in s - {r[0]} {
      if x in tail {
        var k :| 0 <= k < |tail| && tail[k] == x;
        assert r[k + 1] == x && r[0] < r[k + 1];
      }
      if x in s - {r[0]} {
        var k :| 0 <= k < |r| && r[k] == x;
        assert tail[k - 1] == x;
      }
    }
  }

  /** One step of the ascending listing: the least id, then the rest. */
  lemma SortedIdsStep(s: set<int>)
    requires s != {}
    ensures SortedIds(s) == [Least(s)] + SortedIds(s - {Least(s)})
  {
  }

  /** The ascending listing is the only strictly increasing listing of a set. */
  lemma {:induction false} SortedIdsUnique(s: set<int>, r: seq<int>)
    requires Increasing(r) && Lists(r, s)
    ensures r == SortedIds(s)
    decreases |r|
  {
    if r == [] {
      assert s == {};
    } else {
      var m, tail := r[0], r[1..];
      assert s != {} && Least(s) == m by { HeadIsLeast(s, r); }
      assert tail == SortedIds(s - {m}) by {
        TailLists(s, r);
        SortedIdsUnique(s - {m}, tail);
      }
      SortedIdsStep(s);
      assert r == [m] + tail;
    }
  }

  /** The active ids as a list: what `SELECT user_id ... WHERE active` yields.
      SQL fixes no order; the model lists them ascending, which is the order
      an SQLite rowid table (here `user_id` is the rowid) is scanned in. */
  function ActiveList(rows: Rows): (r: seq<int>)
    ensures forall id :: id in r <==> id in rows && rows[id].active
    ensures forall i, j :: 0 <= i < j < |r| ==> r[i] != r[j]
  {
    SortedIds(ActiveIds(rows))
  }

  /** The active count equals the length of the active list. */
  lemma CountIsListLength(rows: Rows)
    ensures ActiveCount(rows) == |ActiveList(rows)|
  {
  }

  /** Soft delete: `UPDATE subscribers SET active = false WHERE user_id = id`. */
  function Deactivate(rows: Rows, id: int): (r: Rows)
    ensures r.Keys == rows.Keys
    ensures id in rows ==> !r[id].active
    ensures id in rows ==> r[id] == rows[id].(active := false)
    ensures id !in rows ==> r == rows
    ensures forall k :: k in rows && k != id ==> r[k] == rows[k]
  {
    if id in rows then rows[id := rows[id].(active := false)] else rows
  }

  /** Every row whose id is in `ids` deactivated, every other row untouched. */
  function Deregistered(rows: Rows, ids: set<int>): Rows {
    map k | k in rows :: if k in ids then rows[k].(active := false) else rows[k]
  }

  /** Deactivating one more id extends the deactivated set by that id. */
  lemma DeactivateExtends(rows: Rows, ids: set<int>, id: int)
    ensures Deactivate(Deregistered(rows, ids), id) == Deregistered(rows, ids + {id})
  {
    var lhs := Deactivate(Deregistered(rows, ids), id);
    var rhs := Deregistered(rows, ids + {id});
    assert lhs.Keys == rhs.Keys;
    forall k | k in lhs.Keys
      ensures lhs[k] == rhs[k]
    {
    }
  }

  /** Deactivating one id first and a set of ids afterwards deactivates both. */
  lemma DeactivateThenDeregister(rows: Rows, id: int, ids: set<int>)
    ensures Deregistered(Deactivate(rows, id), ids) == Deregistered(rows, {id} + ids)
  {
    var lhs := Deregistered(Deactivate(rows, id), ids);
    var rhs := Deregistered(rows, {id} + ids);
    assert lhs.Keys == rhs.Keys;
    forall k | k in lhs.Keys
      ensures lhs[k] == rhs[k]
    {
    }
  }

  /** Deregistering the empty set changes nothing. */
  lemma DeregisteredNone(rows: Rows)
    ensures Deregistered(rows, {}) == rows
  {
    assert Deregistered(rows, {}).Keys == rows.Keys;
  }

  /** Deregistering a set of ids removes exactly those ids from the active set. */
  lemma ActiveAfterDeregister(rows: Rows, ids: set<int>)
    ensures ActiveIds(Deregistered(rows, ids)) == ActiveIds(rows) - ids
  {
  }

  /** Deregistration only ever clears `active`: keys, handles, names and
      subscription times survive, and ids outside the set keep their flag. */
  lemma DeregisteredOnlyClearsActive(rows: Rows, ids: set<int>)
    ensures Deregistered(rows, ids).Keys == rows.Keys
    ensures forall k :: k in rows ==>
      var r := Deregistered(rows, ids)[k];
      && r.username == rows[k].username
      && r.firstName == rows[k].firstName
      && r.subscribedAt == rows[k].subscribedAt
      && r.active == (rows[k].active && k !in ids)
  {
  }
}

=== FILE: rendering.dfy ===
/** The message body sent to subscribers, up to its structure: which parts
    appear, in what order, with which icon. Text layout, title casing and
    the generation timestamp are presentation only. */
module Rendering {
  import opened Wrappers
  import opened Artifact

  /** The coloured circles used as icons. */
  datatype Icon = Green | Yellow | Red

  const KeyPointLimit := 3

  /** Polarity icon: positive is green, negative red, anything else yellow. */
  function ImpactIcon(impactType: string): (i: Icon)
    ensures i == Green <==> impactType == "positive"
    ensures i == Red <==> impactType == "negative"
    ensures i == Yellow <==> impactType != "positive" && impactType != "negative"
  {
    if impactType == "positive" then Green
    else if impactType == "negative" then Red
    else Yellow
  }

  /** Confidence icon: high is green, medium yellow, anything else red. */
  function ConfidenceIcon(level: string): (i: Icon)
    ensures i == Green <==> level == "high"
    ensures i == Yellow <==> level == "medium"
    ensures i == Red <==> level != "high" && level != "medium"
  {
    if level == "high" then Green
    else if level == "medium" then Yellow
    else Red
  }

  datatype StockEntry = StockEntry(impact: Icon, ticker: string, companyName: string,
                                   impactType: string, magnitude: string, reason: string,
                                   confidence: Icon, confidenceLevel: string)

  /** `keyCompanies` is listed only when the sector names any. */
  datatype SectorEntry = SectorEntry(impact: Icon, name: string, impactType: string,
                                     reason: string, keyCompanies: Option<seq<string>>)

  /** An empty `stocks` or `sectors` list means that section and its heading are omitted. */
  datatype Body = Body(summary: string, keyPoints: seq<string>, sentiment: string,
                       stocks: seq<StockEntry>, sectors: seq<SectorEntry>,
                       implications: Option<string>)

  function StockEntryOf(s: Stock): StockEntry {
    StockEntry(ImpactIcon(s.impactType), s.ticker, s.companyName, s.impactType,
               s.expectedMagnitude, s.impactReason,
               ConfidenceIcon(s.confidenceLevel), s.confidenceLevel)
  }

  function SectorEntryOf(s: Sector): SectorEntry {
    SectorEntry(ImpactIcon(s.impactType), s.sectorName, s.impactType, s.impactReason,
                if s.keyCompanies != [] then Some(s.keyCompanies) else None)
  }

  /** The rendered body: the summary, at most the first three key points,
      the sentiment, one entry per impacted stock and per affected sector in
      the analysis' order, and the implications only when non-empty. */
  function Render(a: Analysis): (b: Body)
    ensures b.summary == a.summary && b.sentiment == a.sentiment
    ensures |b.keyPoints| == Min(KeyPointLimit, |a.keyPoints|)
    ensures b.keyPoints == a.keyPoints[..|b.keyPoints|]
    ensures |b.stocks| == |a.stocks|
    ensures forall i :: 0 <= i < |a.stocks| ==>
      && b.stocks[i].ticker == a.stocks[i].ticker
      && b.stocks[i].impact == ImpactIcon(a.stocks[i].impactType)
      && b.stocks[i].confidence == ConfidenceIcon(a.stocks[i].confidenceLevel)
    ensures |b.sectors| == |a.sectors|
    ensures forall i :: 0 <= i < |a.sectors| ==>
      && b.sectors[i].name == a.sectors[i].sectorName
      && b.sectors[i].impact == ImpactIcon(a.sectors[i].impactType)
      && (b.sectors[i].keyCompanies.Some? <==> a.sectors[i].keyCompanies != [])
    ensures b.implications.Some? <==> a.implications != ""
    ensures b.implications.Some? ==> b.implications.value == a.implications
  {
    Body(a.summary,
         a.keyPoints[..Min(KeyPointLimit, |a.keyPoints|)],
         a.sentiment,
         seq(|a.stocks|, i requires 0 <= i < |a.stocks| => StockEntryOf(a.stocks[i])),
         seq(|a.sectors|, i requires 0 <= i < |a.sectors| => SectorEntryOf(a.sectors[i])),
         if a.implications != "" then Some(a.implications) else None)
  }

  /** Four key points render as the first three. */
  lemma FourKeyPointsRenderThree()
    ensures Render(Analysis("s", [], [], "neutral", ["a", "b", "c", "d"], "")).keyPoints == ["a", "b", "c"]
  {
  }

  /** Key points past the third never reach the body. */
  lemma LaterKeyPointsDropped(a: Analysis, p: string)
    requires |a.keyPoints| >= KeyPointLimit
    ensures Render(a.(keyPoints := a.keyPoints + [p])) == Render(a)
  {
    var b := a.(keyPoints := a.keyPoints + [p]);
    assert b.keyPoints[..KeyPointLimit] == a.keyPoints[..KeyPointLimit];
  }
}

=== FILE: sqlite_store.dfy ===
/** The embedded file-based backend (`subscriber_db_sqlite.py`). Every
    operation opens the database file afresh, so the store is just its rows.
    `fault` says whether the backend raises while running the statement; a
    faulting write is not committed. */
module SqliteStore {
  import opened Wrappers
  import opened Registry

  /** A write's effect on the file and the boolean the method returns. */
  datatype WriteResult = WriteResult(rows: Rows, ok: bool)

  /** `connect`: `CREATE TABLE IF NOT EXISTS` keeps any existing rows; an error is re-raised. */
  function Connect(rows: Rows, fault: bool): (r: Result<Rows, StoreError>)
    ensures fault <==> r.Err?
    ensures r.Ok? ==> r.value == rows
  {
    if fault then Err(DatabaseError) else Ok(rows)
  }

  /** `add_subscriber`: `INSERT OR REPLACE` writes a whole new row, so the
      display fields are the new ones, the row is active and `subscribed_at`
      is the current time even when the id was already present. */
  function AddSubscriber(rows: Rows, userId: int, username: Option<string>,
                         firstName: Option<string>, now: int, fault: bool): (r: WriteResult)
    ensures r.ok <==> !fault
    ensures fault ==> r.rows == rows
    ensures !fault ==> r.rows.Keys == rows.Keys + {userId}
    ensures !fault ==> r.rows[userId] == Subscriber(username, firstName, now, true)
    ensures forall k :: k in rows && k != userId ==> k in r.rows && r.rows[k] == rows[k]
  {
    if fault then WriteResult(rows, false)
    else WriteResult(rows[userId := Subscriber(username, firstName, now, true)], true)
  }

  /** `remove_subscriber`: soft delete of the matching row; succeeds (returns
      True) whether or not the id is known. */
  function RemoveSubscriber(rows: Rows, userId: int, fault: bool): (r: WriteResult)
    ensures r.ok <==> !fault
    ensures r.rows.Keys == rows.Keys
    ensures !fault && userId in rows ==> !r.rows[userId].active
    ensures !fault && userId in rows ==> r.rows[userId] == rows[userId].(active := false)
    ensures userId !in rows || fault ==> r.rows == rows
    ensures forall k :: k in rows && k != userId ==> r.rows[k] == rows[k]
    ensures forall k :: k in rows ==> r.rows[k].subscribedAt == rows[k].subscribedAt
  {
    if fault then WriteResult(rows, false)
    else WriteResult(Deactivate(rows, userId), true)
  }

  /** `get_active_subscribers`: exactly the active ids, or `[]` on error. */
  function GetActiveSubscribers(rows: Rows, fault: bool): (r: seq<int>)
    ensures fault ==> r == []
    ensures !fault ==> forall id :: id in r <==> id in rows && rows[id].active
    ensures forall i, j :: 0 <= i < j < |r| ==> r[i] != r[j]
  {
    if fault then [] else ActiveList(rows)
  }

  /** `get_subscriber_count`: the number of active rows, or 0 on error. */
  function GetSubscriberCount(rows: Rows, fault: bool): (r: nat)
    ensures fault ==> r == 0
    ensures !fault ==> r == |GetActiveSubscribers(rows, false)|
  {
    CountIsListLength(rows);
    if fault then 0 else ActiveCount(rows)
  }

  /** `close`: only logs; the file and its rows are untouched. */
  function Close(rows: Rows): (r: Rows)
    ensures GetActiveSubscribers(r, false) == GetActiveSubscribers(rows, false)
    ensures GetSubscriberCount(r, false) == GetSubscriberCount(rows, false)
  {
    rows
  }

  /** Closing any number of times leaves what every read reports unchanged. */
  lemma CloseRepeatable(rows: Rows)
    ensures Close(Close(rows)) == rows
  {
  }

  /** Subscribe, unsubscribe, subscribe again: the row is active and carries
      the handle and name given last. */
  lemma Resubscribe(rows: Rows, userId: int,
                    u1: Option<string>, f1: Option<string>, t1: int,
                    u2: Option<string>, f2: Option<string>, t2: int)
    ensures
      var r1 := AddSubscriber(rows, userId, u1, f1, t1, false).rows;
      var r2 := RemoveSubscriber(r1, userId, false).rows;
      var r3 := AddSubscriber(r2, userId, u2, f2, t2, false).rows;
      && r3[userId] == Subscriber(u2, f2, t2, true)
      && userId in GetActiveSubscribers(r3, false)
  {
  }

  /** Repeating an add later with the same handle and name changes only the
      row's `subscribed_at`, which becomes the later time: `INSERT OR REPLACE`
      restamps the row. */
  lemma RepeatAddRestamps(rows: Rows, userId: int, u: Option<string>, f: Option<string>, t1: int, t2: int)
    ensures
      var once := AddSubscriber(rows, userId, u, f, t1, false).rows;
      AddSubscriber(once, userId, u, f, t2, false).rows
        == once[userId := once[userId].(subscribedAt := t2)]
  {
  }

  /** Removing an id the table does not hold changes nothing and reports success. */
  lemma RemoveUnknownIsNoOp(rows: Rows, userId: int)
    requires userId !in rows
    ensures RemoveSubscriber(rows, userId, false) == WriteResult(rows, true)
  {
  }

  /** From an empty store, subscribing 42 gives the active list `[42]` and count 1. */
  lemma EmptyStoreScenario()
    ensures
      var rows := AddSubscriber(map[], 42, Some("alice"), Some("Alice"), 0, false).rows;
      && GetActiveSubscribers(rows, false) == [42]
      && GetSubscriberCount(rows, false) == 1
  {
    var rows := AddSubscriber(map[], 42, Some("alice"), Some("Alice"), 0, false).rows;
    var list := GetActiveSubscribers(rows, false);
    assert rows.Keys == {42};
    assert 42 in list;
    assert |list| == |ActiveIds(rows)|;
    assert ActiveIds(rows) == {42};
    assert |list| == 1;
  }
}

=== FILE: summarizer.dfy ===
/** The pure parts of `summarize`: the batch text sent to the language model
    and the analyses substituted when its reply is unusable. The model's
    reply itself is an input. */
module Summarizer {
  import opened Wrappers
  import opened Channel
  import opened Artifact

  const Separator := "\n\n---\n\n"
  const MaxPromptChars := 15000
  const TruncationMarker := "...(truncated)"
  const RawExcerptChars := 500
  const ParseFailureLead := "Summary could not be generated in the correct format. Here's the raw output: "
  const ParseFailurePoint := "Error: Unable to parse structured data"
  const RequestFailureSummary := "Error generating summary"
  const RequestFailurePoint := "Failed to analyze news due to an error"

  /** How the language-model call ended: a reply `json.loads` accepted, a
      reply it rejected (with the raw text), or a failed request. */
  datatype Reply = Replied(parsed: Parsed) | Unparseable(raw: string) | RequestFailed

  /** The message texts, in fetched order. */
  function Texts(ms: seq<Message>): (ts: seq<string>)
    ensures |ts| == |ms|
    ensures forall i :: 0 <= i < |ms| ==> ts[i] == ms[i].text
  {
    seq(|ms|, i requires 0 <= i < |ms| => ms[i].text)
  }

  /** `Separator.join(ts)`: no texts join to the empty string, and the
      joined string starts with the first text. */
  function Join(ts: seq<string>): (r: string)
    ensures ts == [] ==> r == ""
    ensures ts != [] ==> |ts[0]| <= |r| && r[..|ts[0]|] == ts[0]
  {
    if |ts| == 0 then ""
    else if |ts| == 1 then ts[0]
    else ts[0] + Separator + Join(ts[1..])
  }

  /** Where the `i`-th text starts in the joined string: every earlier text
      followed by one separator. */
  function Offset(ts: seq<string>, i: nat): nat
    requires i <= |ts|
  {
    if i == 0 then 0 else Offset(ts, i - 1) + |ts[i - 1]| + |Separator|
  }

  lemma {:induction false} OffsetShift(ts: seq<string>, i: nat)
    requires 1 <= i <= |ts|
    ensures Offset(ts, i) == |ts[0]| + |Separator| + Offset(ts[1..], i - 1)
  {
    if i > 1 {
      OffsetShift(ts, i - 1);
      assert ts[1..][i - 2] == ts[i - 1];
    }
  }

  /** The joined length: all texts plus one separator between neighbours. */
  lemma {:induction false} JoinLength(ts: seq<string>)
    requires |ts| >= 1
    ensures |Join(ts)| == Offset(ts, |ts| - 1) + |ts[|ts| - 1]|
  {
    if |ts| > 1 {
      JoinLength(ts[1..]);
      OffsetShift(ts, |ts| - 1);
      assert ts[1..][|ts| - 2] == ts[|ts| - 1];
    }
  }

  /** A slice of the second part of a concatenation, shifted by the first part. */
  lemma SliceAfter(head: string, tail: string, a: nat, b: nat)
    requires a <= b <= |tail|
    ensures (head + tail)[|head| + a..|head| + b] == tail[a..b]
  {
  }

  /** The `i`-th text appears verbatim at its offset: texts keep their order. */
  lemma {:induction false} JoinPlacesText(ts: seq<string>, i: nat)
    requires i < |ts|
    ensures Offset(ts, i) + |ts[i]| <= |Join(ts)|
    ensures Join(ts)[Offset(ts, i)..Offset(ts, i) + |ts[i]|] == ts[i]
  {
    if |ts| == 1 {
    } else if i == 0 {
      assert Join(ts) == ts[0] + (Separator + Join(ts[1..]));
    } else {
      var head, tail := ts[0] + Separator, Join(ts[1..]);
      var k := Offset(ts[1..], i - 1);
      assert k + |ts[i]| <= |tail| && tail[k..k + |ts[i]|] == ts[i] by {
        JoinPlacesText(ts[1..], i - 1);
        assert ts[1..][i - 1] == ts[i];
      }
      assert Offset(ts, i) == |head| + k by { OffsetShift(ts, i); }
      assert Join(ts) == head + tail;
      SliceAfter(head, tail, k, k + |ts[i]|);
    }
  }

  /** Exactly one separator stands between the `i`-th and the next text. */
  lemma {:induction false} JoinPlacesSeparator(ts: seq<string>, i: nat)
    requires i + 1 < |ts|
    ensures Offset(ts, i + 1) <= |Join(ts)|
    ensures Join(ts)[Offset(ts, i) + |ts[i]|..Offset(ts, i + 1)] == Separator
  {
    if i == 0 {
      assert Join(ts) == ts[0] + Separator + Join(ts[1..]);
      assert Offset(ts, 1) == |ts[0]| + |Separator|;
    } else {
      var head, tail := ts[0] + Separator, Join(ts[1..]);
      var a, b := Offset(ts[1..], i - 1) + |ts[i]|, Offset(ts[1..], i);
      assert b <= |tail| && tail[a..b] == Separator by {
        JoinPlacesSeparator(ts[1..], i - 1);
        assert ts[1..][i - 1] == ts[i];
      }
      assert Offset(ts, i) + |ts[i]| == |head| + a && Offset(ts, i + 1) == |head| + b by {
        OffsetShift(ts, i);
        OffsetShift(ts, i + 1);
      }
      assert Join(ts) == head + tail;
      SliceAfter(head, tail, a, b);
    }
  }

  /** Caps the text sent to the model: beyond the limit, the first
      `MaxPromptChars` characters followed by the truncation marker. */
  function Truncate(text: string): (r: string)
    ensures |r| <= MaxPromptChars + |TruncationMarker|
    ensures |text| <= MaxPromptChars ==> r == text
    ensures |text| > MaxPromptChars ==>
      && |r| == MaxPromptChars + |TruncationMarker|
      && r[..MaxPromptChars] == text[..MaxPromptChars]
      && r[MaxPromptChars..] == TruncationMarker
  {
    if |text| > MaxPromptChars then text[..MaxPromptChars] + TruncationMarker else text
  }

  /** Truncating an already truncated text gives it back unchanged. */
  lemma TruncateIdempotent(text: string)
    ensures Truncate(Truncate(text)) == Truncate(text)
  {
    if |text| > MaxPromptChars {
      var once := Truncate(text);
      assert once[..MaxPromptChars] == text[..MaxPromptChars];
      assert once[..MaxPromptChars] + TruncationMarker == once;
    }
  }

  /** Every message text of a batch sits at its offset in the joined text. */
  lemma JoinPlacesEveryText(ms: seq<Message>)
    ensures forall i :: 0 <= i < |ms| ==>
      Offset(Texts(ms), i) + |ms[i].text| <= |Join(Texts(ms))| &&
      Join(Texts(ms))[Offset(Texts(ms), i)..Offset(Texts(ms), i) + |ms[i].text|] == ms[i].text
  {
    forall i | 0 <= i < |ms|
      ensures Offset(Texts(ms), i) + |ms[i].text| <= |Join(Texts(ms))|
      ensures Join(Texts(ms))[Offset(Texts(ms), i)..Offset(Texts(ms), i) + |ms[i].text|] == ms[i].text
    {
      JoinPlacesText(Texts(ms), i);
    }
  }

  /** The batch text of a non-empty batch: joined, then truncated. */
  function BatchText(ms: seq<Message>): (r: string)
    requires ms != []
    ensures |r| <= MaxPromptChars + |TruncationMarker|
    ensures |Join(Texts(ms))| > MaxPromptChars ==>
      |r| == MaxPromptChars + |TruncationMarker| &&
      r[..MaxPromptChars] == Join(Texts(ms))[..MaxPromptChars] && r[MaxPromptChars..] == TruncationMarker
    ensures |Join(Texts(ms))| <= MaxPromptChars ==>
      forall i :: 0 <= i < |ms| ==>
        Offset(Texts(ms), i) + |ms[i].text| <= |r| && r[Offset(Texts(ms), i)..Offset(Texts(ms), i) + |ms[i].text|] == ms[i].text
  {
    var joined := Join(Texts(ms));
    JoinPlacesEveryText(ms);
    Truncate(joined)
  }

  /** The shape every substituted analysis has. */
  predicate IsFallback(a: Analysis) {
    && a.stocks == []
    && a.sectors == []
    && a.sentiment == "neutral"
    && |a.keyPoints| == 1
    && a.implications == ""
    && a.summary != ""
  }

  /** The analysis substituted for a reply that is not valid JSON: it quotes
      at most `RawExcerptChars` characters from the start of the raw reply. */
  function ParseFallback(raw: string): (a: Analysis)
    ensures IsFallback(a)
    ensures a.keyPoints == [ParseFailurePoint]
    ensures |ParseFailureLead| + 3 <= |a.summary| <= |ParseFailureLead| + RawExcerptChars + 3
    ensures a.summary[..|ParseFailureLead|] == ParseFailureLead
    ensures a.summary[|a.summary| - 3..] == "..."
    ensures var excerpt := a.summary[|ParseFailureLead|..|a.summary| - 3];
      |excerpt| == Min(RawExcerptChars, |raw|) && excerpt == raw[..|excerpt|]
  {
    var excerpt := raw[..Min(RawExcerptChars, |raw|)];
    var summary := ParseFailureLead + excerpt + "...";
    assert summary[|ParseFailureLead|..|summary| - 3] == excerpt;
    Analysis(summary, [], [], "neutral", [ParseFailurePoint], "")
  }

  /** The analysis substituted when the request itself fails. */
  function RequestFallback(): (a: Analysis)
    ensures IsFallback(a)
    ensures a.summary == RequestFailureSummary && a.keyPoints == [RequestFailurePoint]
  {
    Analysis(RequestFailureSummary, [], [], "neutral", [RequestFailurePoint], "")
  }

  /** `summarize`: `None` for an empty batch, whatever the model would say;
      otherwise the parsed reply as is, or a fallback analysis when the reply
      cannot be parsed or the request fails. A reply parsing to `null` is
      Python's `None` too; here it is `Some(Falsy)`, which every caller
      treats alike through `Truthy`. */
  function Summarize(ms: seq<Message>, reply: Reply): (r: Summary)
    ensures r.None? <==> ms == []
    ensures ms != [] && reply.Replied? ==> r == Some(reply.parsed)
    ensures ms != [] && !reply.Replied? ==> r.Some? && r.value.Shaped? && IsFallback(r.value.analysis)
    ensures ms != [] && reply.Unparseable? ==> r.value.analysis.keyPoints == [ParseFailurePoint]
    ensures ms != [] && reply.RequestFailed? ==> r.value.analysis.keyPoints == [RequestFailurePoint]
    ensures ms != [] && reply.Unparseable? ==>
      r.value.analysis.summary == ParseFailureLead + reply.raw[..Min(RawExcerptChars, |reply.raw|)] + "..."
    ensures ms != [] && reply.RequestFailed? ==> r.value.analysis.summary == RequestFailureSummary
  {
    if ms == [] then None
    else match reply
      case Replied(parsed) => Some(parsed)
      case Unparseable(raw) => Some(Shaped(ParseFallback(raw)))
      case RequestFailed => Some(Shaped(RequestFallback()))
  }

  /** A failed model call never stops the pipeline: the summary is always
      truthy and fully shaped, with a non-empty summary text. */
  lemma FailedCallStillSummarises(ms: seq<Message>, reply: Reply)
    requires ms != [] && !reply.Replied?
    ensures Truthy(Summarize(ms, reply))
    ensures Summarize(ms, reply).value.Shaped?
    ensures Summarize(ms, reply).value.analysis.summary != ""
  {
  }
}

=== FILE: wrappers.dfy ===
/** Failure-compatible carriers used across the model: `Option` for Python's
    `None`-or-value, `Result` for an operation that either returns or raises. */
module Wrappers {

  datatype Option<+T> = None | Some(value: T)

  datatype Result<+T, +E> = Ok(value: T) | Err(error: E)

  function Min(a: int, b: int): int {
    if a <= b then a else b
  }
}
